=== FILE: README.md ===
# RadProfBias bookkeeping, in Dafny

This project models the bookkeeping of `RadProfBias` in halotools'
`halotools/gal_prof_components.py`. `RadProfBias` is the component that
rescales the profile parameters of satellite galaxies (halo concentration,
say) by a factor that depends on a halo property. The model covers:

- configuration and validation of the constructor (`test_sensible_inputs`,
  the default-filling loop of `set_parameter_dict`, the interpolation-method
  check in `__init__`);
- the synthesised string keys: per-ordinate keys
  `<param>_biasfunc_par<i>_<gal_type>` and per-parameter table keys
  `<param>_model_abcissa_<gal_type>` / `<param>_model_ordinates_<gal_type>`;
- the flat, string-keyed parameter store that an outside optimiser rewrites;
- rebuilding the ordinate list from that store
  (`retrieve_model_abcissa_ordinates`);
- the spline-degree clamp and the spline set-up (`_setup_spline`);
- evaluation: input resolution (`retrieve_input_prof_params`), the
  modulation factor (`radprof_modfunc`) and the modulated output
  (`get_modulated_prof_params`).

The spline fitter and the polynomial through a table are numerical
routines outside the model. They are function-typed parameters
(`Spline.SplineFitter`, `Construction.PolynomialFromTable`) and nothing is
assumed about them. Floats are modelled as `real`. Every error is a
`Result` failure whose `Errors.Error` constructor names the exception the
source raises.

Modules, one file each: `Wrappers` (Result/Outcome/Option), `Errors`,
`Decimal` (Python's `str` of a natural number), `Keys`, `ParameterStore`,
`Retrieval`, `Spline`, `Construction`, `Evaluation`.

### The key formats disagree

The writer of the per-ordinate keys (line 407) numbers ordinates from 0 and
puts `_` before the galaxy type: `conc_biasfunc_par2_satellites` for index
2. The reader (line 324) numbers from 1 and omits the `_`:
`conc_biasfunc_par3satellites` for index 2. Both are modelled as written.
`Keys.ReaderKeyIsNeverWritten` proves that no reader key equals any
writer key, abcissa-table key or ordinates-table key, for any parameter
names and indices.

The reader first keeps every store key that starts with the parameter's
name. It then looks up reader keys `0..n-1`, where `n` is the number of
keys it kept. So retrieval succeeds exactly when the kept keys are
precisely those reader keys (`Retrieval.RetrieveSucceedsIff`). Any written
ordinate or abcissa table of the parameter defeats it, and so does a
longer parameter name that extends it. The store of a constructed
component holds the abcissa table of every configured parameter, because
`_setup_spline` reads it from there (line 445). So
`Evaluation.ConstructedModelRejectsEveryRequest` proves that a freshly
constructed component fails every non-empty evaluation request.

## Model

| member | source | states |
|---|---|---|
| Decimal.NatToString | halotools/gal_prof_components.py:407-407 | `str(ii)`: a non-empty string of decimal digits with no leading zero except for 0 itself |
| Decimal.DigitsValueOfNatToString | halotools/gal_prof_components.py:407-407 | reading the decimal digits of `str(n)` gives back `n` |
| Decimal.NatToStringInjective | halotools/gal_prof_components.py:324-324 | distinct indices give distinct decimal strings |
| Keys.WriterKey | halotools/gal_prof_components.py:406-408 | the written key of ordinate `ii` is the stem `<param>_biasfunc_par`, then the decimal form of `ii` (0-based, no leading zero), then `_` and the galaxy type |
| Keys.ReaderKey | halotools/gal_prof_components.py:323-325 | the key looked up for position `ipar` is the stem, then the decimal form of `ipar + 1` (no leading zero), then the galaxy type with no separator |
| Keys.AbcissaKey | halotools/gal_prof_components.py:427-428 | the abcissa-table key starts with the parameter name, so that parameter's prefix filter keeps it |
| Keys.OrdinatesKey | halotools/gal_prof_components.py:429-430 | the ordinates-table key starts with the parameter name, so that parameter's prefix filter keeps it |
| Keys.TableKeyFormat | halotools/gal_prof_components.py:427-430 | each table key is the parameter name, then `_model_abcissa_` or `_model_ordinates_`, then the galaxy type, and parses back into those three parts |
| Keys.WriterKeyInjective | halotools/gal_prof_components.py:403-408 | for a fixed galaxy type, two equal written ordinate keys have the same parameter and the same index (the parameter and index can be recovered from the key) |
| Keys.ReaderKeyInjective | halotools/gal_prof_components.py:323-325 | for a fixed galaxy type, two equal reader keys have the same parameter and the same index |
| Keys.ReaderKeyIsNeverWritten | halotools/gal_prof_components.py:323-325 | no reader key equals any 0-based written ordinate key, abcissa-table key or ordinates-table key, whatever the parameters and indices |
| Keys.TableKeysInjective | halotools/gal_prof_components.py:427-430 | equal abcissa-table keys, or equal ordinates-table keys, come from the same parameter |
| Keys.KeyFamiliesDisjoint | halotools/gal_prof_components.py:406-430 | ordinate keys, abcissa-table keys and ordinates-table keys never collide with each other |
| Keys.KeyFormatExample | halotools/gal_prof_components.py:323-325 | for `conc`, index 2 and `satellites`, the writer gives `conc_biasfunc_par2_satellites` and the reader asks for `conc_biasfunc_par3satellites` |
| ParameterStore.WrittenKeysCount | halotools/gal_prof_components.py:406-409 | `n` ordinates get exactly `n` distinct written keys |
| ParameterStore.OrdinateEntries | halotools/gal_prof_components.py:406-409 | the renamed dictionary of one parameter has exactly the written keys for indices `0..n-1`, and the key of index `i` holds ordinate `i` |
| ParameterStore.OrdinateEntriesCount | halotools/gal_prof_components.py:406-409 | the renamed dictionary has one entry per ordinate: none are lost to key collisions |
| ParameterStore.AllWriterKeysDistinct | halotools/gal_prof_components.py:403-408 | across all parameters and indices, distinct (parameter, index) pairs get distinct keys |
| ParameterStore.AbcissaTables | halotools/gal_prof_components.py:427-428 | each configured parameter's abcissa table sits under its abcissa-table key, and the store holds no other keys |
| ParameterStore.OrdinateTables | halotools/gal_prof_components.py:429-430 | each parameter's ordinates table sits under its ordinates-table key, and the store holds no other keys |
| ParameterStore.RenamedOrdinates | halotools/gal_prof_components.py:403-409 | the renamed ordinates of all parameters together: its keys are exactly the written keys of every (parameter, index) pair, and ordinate `i` of parameter `p` is under `p`'s written key for index `i` |
| ParameterStore.InitialStore | halotools/gal_prof_components.py:379-379 | the store the unfinished assignment stands for holds each configured parameter's abcissa table under its abcissa-table key, where the spline set-up reads it (445) |
| ParameterStore.RenamedOrdinatesJoinEntries | halotools/gal_prof_components.py:406-409 | each parameter's renamed dictionary from the loop body sits unchanged inside the renamed ordinates of all parameters |
| ParameterStore.InitialStoreHoldsOrdinatesTable | halotools/gal_prof_components.py:447-450 | the initial store holds each parameter's ordinates table under its ordinates-table key |
| ParameterStore.InitialStoreHoldsOrdinate | halotools/gal_prof_components.py:406-409 | the initial store holds each individual ordinate under its written key, so the flat store addresses every ordinate |
| Retrieval.RelevantSubDict | halotools/gal_prof_components.py:317-320 | the relevant sub-dictionary is part of the store: every key it keeps is a store key with its store value |
| Retrieval.RelevantSubDictIsSliceTest | halotools/gal_prof_components.py:317-320 | a store key is kept iff the slice test `key[0:len(param)] == param` holds: it is at least as long as the parameter name and starts with it |
| Retrieval.ReaderKeyHasPrefix | halotools/gal_prof_components.py:319-324 | every reader key of a parameter passes that parameter's prefix filter |
| Retrieval.ReaderKeysCount | halotools/gal_prof_components.py:322-325 | the loop over `n` positions asks for `n` distinct reader keys |
| Retrieval.CollectOrdinates | halotools/gal_prof_components.py:322-326 | the index loop succeeds iff reader keys `0..n-1` are all present; it then returns their values in index order, and otherwise fails with a KeyError on the first missing one |
| Retrieval.RetrieveModelAbcissaOrdinates | halotools/gal_prof_components.py:307-329 | an unknown parameter is a KeyError; on success the abcissa is returned unchanged, with one ordinate per prefix-matching store key, and entry `i` is the store's value under reader key `i`; any other failure is a KeyError on the first missing reader key, as the loop at 323-325 raises it |
| Retrieval.RetrieveSucceedsIff | halotools/gal_prof_components.py:317-326 | retrieval succeeds iff the parameter has an abcissa and its prefix-matching keys are exactly reader keys `0..n-1` |
| Retrieval.ForeignKeyDefeatsRetrieval | halotools/gal_prof_components.py:318-325 | any prefix-matching key that is not a reader key makes retrieval fail |
| Retrieval.WrittenOrdinateDefeatsRetrieval | halotools/gal_prof_components.py:318-325 | a single ordinate written under the 0-based `_` key makes its parameter's retrieval fail |
| Retrieval.AbcissaTableDefeatsRetrieval | halotools/gal_prof_components.py:318-325 | a parameter's own abcissa table in the store makes its retrieval fail |
| Retrieval.LongerParamDefeatsRetrieval | halotools/gal_prof_components.py:318-325 | an ordinate of another parameter whose name extends this one (`conc_sat` for `conc`) makes this parameter's retrieval fail |
| Spline.SplineDegree | halotools/gal_prof_components.py:437-446 | the degree is at most 5, at most the requested degree, at most `k-1`, and equal to one of the three (their minimum) |
| Spline.SplineDegreeExamples | halotools/gal_prof_components.py:140-143 | (requested 3, 2 points) gives 1; (3, 6) gives 3; (7, 6) gives 5 |
| Spline.SetupSpline | halotools/gal_prof_components.py:434-450 | succeeds iff every parameter with an abcissa also has ordinates (the lookup at 449 is a KeyError otherwise); each parameter gets the clamped degree and the fitter applied to its own abcissa, ordinates and degree |
| Construction.SensibleInputsAsWritten | halotools/gal_prof_components.py:332-360 | as written, every configuration is rejected with the "do not pass input_abcissa_dict" error |
| Construction.SensibleInputs | halotools/gal_prof_components.py:332-360 | intended validation: passes iff there is a non-empty list of known parameters and no tables, or no list and both tables; the abcissa error is raised before the ordinates error in both branches (336 before 341, 352 before 357), and UnknownProfParam iff a listed parameter is unknown and no table is given |
| Construction.AsWrittenRejectsEveryValidConfiguration | halotools/gal_prof_components.py:334-336 | every configuration the intended check accepts is rejected by the check as written |
| Construction.ConfiguredTables | halotools/gal_prof_components.py:371-374 | with a parameter list, exactly the listed parameters get the default abcissa and ordinates; otherwise the given tables are used unchanged |
| Construction.ConfiguredTablesAsWritten | halotools/gal_prof_components.py:371-377 | as written, the default-filling loop always runs: exactly the listed parameters get the default tables, whatever explicit tables are passed |
| Construction.ConfiguredTablesAsWrittenDropsExplicitTables | halotools/gal_prof_components.py:371-377 | the written and intended readings agree on a parameter list; on an explicit configuration the written one keeps no tables while the intended one keeps them |
| Construction.AbcissaKeyIndex | halotools/gal_prof_components.py:427-428 | `abcissa_key` maps exactly the configured parameters to their abcissa-table keys |
| Construction.OrdinatesKeyIndex | halotools/gal_prof_components.py:429-430 | `ordinates_key` maps exactly the configured parameters to their ordinates-table keys |
| Construction.Construct | halotools/gal_prof_components.py:147-166 | validation errors come first, then the interpolation-method IOError, then the spline set-up, whose only failure is the KeyError at 449 (`UnpairedParam`); success iff all three pass; a constructed component is well formed, keeps the given galaxy type, halo model, polynomial, method, requested degree and configured tables, its store is the initial store built from those tables, and in spline mode each parameter's function is the fitter applied to its abcissa, ordinates and clamped degree |
| Construction.ConstructedSplineDegreeBounds | halotools/gal_prof_components.py:140-143 | in a constructed spline component, every parameter's degree is at most 5, at most the requested degree and at most its abcissa count minus one |
| Evaluation.PositionalInputs | halotools/gal_prof_components.py:231-231 | more arrays than keys is an IndexError; otherwise the keys are the first `|args|` parameter names, and a name not repeated later maps to its own array |
| Evaluation.ZipLastWins | halotools/gal_prof_components.py:231-231 | under the dictionary comprehension's last-wins rule, a key not repeated later keeps its own array |
| Evaluation.MockInputs | halotools/gal_prof_components.py:232-235 | succeeds iff the mock has every requested attribute, and then maps each key to the mock's attribute of that name; otherwise an AttributeError names the first missing key |
| Evaluation.RetrieveInputProfParams | halotools/gal_prof_components.py:223-241 | arrays and a mock is a TypeError; neither is a SyntaxError; arrays only gives the positional mapping; a mock only gives the attribute mapping |
| Evaluation.ModulationFactor | halotools/gal_prof_components.py:273-286 | retrieval runs first and its failure propagates; an unknown method is an IOError; in spline mode a key with no fitted function is the KeyError of the lookup at 281; success iff retrieval succeeds and the method is polynomial, or spline with a fitted function for the key; the factor has one value per input, and value `j` is the polynomial through the retrieved abcissa and ordinates at input `j` (278-279) or the key's fitted spline at input `j` (281-282) |
| Evaluation.ModulationIsPointwise | halotools/gal_prof_components.py:277-282 | equal input values get equal factors, whichever array and position they occupy |
| Evaluation.WellFormedNeverInvalidMethod | halotools/gal_prof_components.py:283-284 | a constructed component never reaches the IOError branch of the evaluation dispatch |
| Evaluation.ModulateOne | halotools/gal_prof_components.py:190-196 | the factor's error propagates unchanged; on success the output array has the input's length, and element `j` is factor `j` times input `j` |
| Evaluation.ModulateAll | halotools/gal_prof_components.py:188-198 | succeeds iff every requested key has an input that modulates; the output's keys are exactly the requested keys, and each value is that key's own modulated array; a failure carries the error of the first failing key in request order: the KeyError at 192 if it has no input, otherwise its modulation error |
| Evaluation.NoCrossCoupling | halotools/gal_prof_components.py:188-196 | a key's output depends only on that key's input array: changing other keys' inputs leaves it unchanged |
| Evaluation.GetModulatedProfParams | halotools/gal_prof_components.py:185-198 | arrays and a mock, or neither, fail as in input dispatch; any input-resolution error (the IndexError at 231, the AttributeError at 235) propagates unchanged, and otherwise a failure is the modulation loop's own error; success iff the inputs resolve and every requested key modulates; on success the keys are exactly the requested ones, and each value is the modulation of that key's mock attribute or positional array |
| Evaluation.TooFewArraysFails | halotools/gal_prof_components.py:188-196 | with positional arrays, fewer arrays than distinct requested keys (repeated keys allowed) always fails, because some requested key gets no array; on a constructed component the error is a KeyError (the lookup at 192, or an earlier key's retrieval or spline lookup) |
| Evaluation.WellFormedFailuresAreKeyErrors | halotools/gal_prof_components.py:273-284 | on a constructed component every modulation failure is a KeyError: retrieval (307, 325) and the spline lookup (281) raise only KeyErrors, and the IOError at 284 is never reached |
| Evaluation.ConfiguredParamCannotBeModulated | halotools/gal_prof_components.py:273-275 | in a constructed component, a configured parameter can never be modulated, because its own abcissa table defeats retrieval |
| Evaluation.WellFormedRejectsEveryRequest | halotools/gal_prof_components.py:188-196 | a constructed component fails every evaluation request for a non-empty list of keys |
| Evaluation.ConstructedModelRejectsEveryRequest | halotools/gal_prof_components.py:147-198 | every component the constructor returns fails every non-empty evaluation request, whatever the inputs |

## Left out

- The spline fitter (`UnivariateSpline` via `occuhelp.aph_spline`) and `occuhelp.polynomial_from_table` are floating-point numerics whose source is not part of this model. They are opaque function parameters.
- Spline.SetupSpline: says nothing about what the fitted function computes (reproducing the ordinates at the abcissa, extrapolation), because the fitter is opaque.
- Evaluation.ModulationFactor: treats the interpolators as acting elementwise on the input array, because the vectorised numpy call is outside the model.
- `TrivialCenProfile` and `IsotropicSats`: random sampling and trigonometry, not bookkeeping.
- `hearin15.py` only wires prebuilt components into a factory and is not part of this model.
- Line 379 (`self.parameter_dict =`) is an incomplete statement, and lines 376 and 385-406 use names that are never bound. `ParameterStore.InitialStore` reconstructs the store that the rest of the class reads. It holds the ordinates renamed at 406-409 (a dictionary the source builds and then discards), plus the abcissa and ordinates tables under the keys `_setup_spline` reads at 445-449. That reading is what makes `Evaluation.ConstructedModelRejectsEveryRequest` hold.
- `abcissa_key` / `ordinates_key` are never initialised before line 427. The model builds them as fresh maps.
- `self.abcissa_dict` (read at 307) is never assigned. The model reads the configured abcissa tables in its place.
- In the explicit-table mode, line 376 stores the whole dictionary under an unbound name. The model takes the abcissa dictionary's keys as the configured parameters, and a parameter with an abcissa but no ordinates fails at the spline set-up (`UnpairedParam`, the KeyError of line 449).
- `get_modulated_prof_params` lacks `self` (168) and passes `args, kwargs` as two positionals (186). The model composes input resolution and modulation as intended.
- `defaults.default_profile_dict` and the `defaults.testmode` checks are process-wide state. The default tables are passed explicitly (`Construction.DefaultProfile`).
- Keyword arguments other than `mock_galaxies` are ignored by the source and are absent from the model.
- The error kinds are the exceptions the source raises: SyntaxError (332-360), IOError (162, 284), TypeError (229), IndexError and AttributeError (raised inside the comprehensions at 231 and 235), and KeyError (307, 325, 449, 281, 192). No other error kind is modelled.
- The known-parameter check at 346-349 applies only when a parameter list is passed; parameters named by explicit tables are never checked against the halo profile model, and the model follows that.
- No check compares the lengths of a parameter's abcissa and ordinates (371-377, 441-450), so the model has no such error.

## Findings

| source | as written | input that shows it | evidently intended | confidence | as-written member | corrected member |
|---|---|---|---|---|---|---|
| halotools/gal_prof_components.py:334-377 | `input_prof_params is not []` and `input_abcissa_dict is {}` compare identity with a freshly built list and dict, so the first test is always true and the second always false; line 371 repeats the first test, so the explicit-table branch at 375-377 is dead too (`Construction.ConfiguredTablesAsWritten`) | `input_prof_params=['conc']` with both dictionaries empty (the documented shorthand) is rejected with "do not pass input_abcissa_dict"; so is every other configuration | emptiness tests: a non-empty list needs both dictionaries empty, and an empty list needs both non-empty (docstring lines 112-130 and the error messages) | high; follows from Python's identity semantics for fresh displays; not executed | Construction.SensibleInputsAsWritten | Construction.SensibleInputs |

=== FILE: construction.dfy ===
/** The `RadProfBias` constructor: input validation (`test_sensible_inputs`),
    the default-filling part of `set_parameter_dict`, the synthesised
    per-parameter table keys, the interpolation-method check and, for spline
    interpolation, the spline set-up. */
module Construction {
  import opened Wrappers
  import opened Errors
  import opened Keys
  import opened ParameterStore
  import opened Spline

  const SplineMethod: string := "spline"
  const PolynomialMethod: string := "polynomial"

  /** The halo profile model whose parameters are modulated; only its
      parameter-key vocabulary matters here. */
  datatype HaloProfileModel = HaloProfileModel(paramKeys: seq<string>)

  /** The default abcissa and ordinates used for every parameter of a
      shorthand (name-list) configuration. */
  datatype DefaultProfile = DefaultProfile(abcissa: seq<real>, ordinates: seq<real>)

  /** Evaluates, at one point, the polynomial through the (abcissa,
      ordinate) pairs of a table. */
  type PolynomialFromTable = (seq<real>, seq<Entry>, real) -> real

  /** A constructed component. Tables are keyed by profile-parameter name;
      `parameterDict` is the flat store an optimiser rewrites. */
  datatype RadProfBias = RadProfBias(
    galType: string,
    haloProfModel: HaloProfileModel,
    abcissaDict: map<string, seq<real>>,
    ordinatesDict: map<string, seq<real>>,
    parameterDict: Store,
    abcissaKey: map<string, string>,
    ordinatesKey: map<string, string>,
    interpolMethod: string,
    inputSplineDegree: int,
    splineDegree: map<string, int>,
    splineFunction: map<string, real -> real>,
    polynomial: PolynomialFromTable)

  /** Python's `x is <literal>` where the literal is a list or dict display:
      the display builds a new object on each evaluation, so no argument is
      ever identical to it. */
  predicate IsFreshLiteral<T>(x: T) {
    false
  }

  /** `test_sensible_inputs` as written. Its tests use `is` / `is not`
      against `[]` and `{}` displays, so the first branch is always taken and
      its first assertion always fails: every configuration is rejected. */
  function SensibleInputsAsWritten(halo: HaloProfileModel, profParams: seq<string>,
                                   abcissa: map<string, seq<real>>, ordinates: map<string, seq<real>>): (r: Outcome<Error>)
    ensures r == Fail(AbcissaWithProfParams)
  {
    if !IsFreshLiteral(profParams) then
      if !IsFreshLiteral(abcissa) then Fail(AbcissaWithProfParams)
      else if !IsFreshLiteral(ordinates) then Fail(OrdinatesWithProfParams)
      else if !(forall p :: p in profParams ==> p in halo.paramKeys) then Fail(UnknownProfParam)
      else Pass
    else if IsFreshLiteral(abcissa) then Fail(MissingAbcissa)
    else if IsFreshLiteral(ordinates) then Fail(MissingOrdinates)
    else Pass
  }

  /** Shorthand configuration: a non-empty list of known profile parameters
      and no explicit tables. */
  predicate ShorthandMode(halo: HaloProfileModel, profParams: seq<string>,
                          abcissa: map<string, seq<real>>, ordinates: map<string, seq<real>>) {
    && |profParams| > 0
    && abcissa == map[]
    && ordinates == map[]
    && forall p :: p in profParams ==> p in halo.paramKeys
  }

  /** Explicit configuration: no parameter list, both tables given. */
  predicate ExplicitMode(profParams: seq<string>, abcissa: map<string, seq<real>>, ordinates: map<string, seq<real>>) {
    |profParams| == 0 && abcissa != map[] && ordinates != map[]
  }

  /** `test_sensible_inputs` as its docstring and error messages intend, with
      emptiness in place of identity: a parameter list excludes both tables
      and must name parameters of the halo profile model; without a list,
      both tables are required. */
  function SensibleInputs(halo: HaloProfileModel, profParams: seq<string>,
                          abcissa: map<string, seq<real>>, ordinates: map<string, seq<real>>): (r: Outcome<Error>)
    ensures r.Pass? <==> ShorthandMode(halo, profParams, abcissa, ordinates) || ExplicitMode(profParams, abcissa, ordinates)
    ensures |profParams| > 0 && (abcissa != map[] || ordinates != map[]) ==>
      r == Fail(AbcissaWithProfParams) || r == Fail(OrdinatesWithProfParams)
    ensures |profParams| == 0 && (abcissa == map[] || ordinates == map[]) ==>
      r == Fail(MissingAbcissa) || r == Fail(MissingOrdinates)
    ensures |profParams| > 0 && abcissa != map[] ==> r == Fail(AbcissaWithProfParams)
    ensures |profParams| > 0 && abcissa == map[] && ordinates != map[] ==> r == Fail(OrdinatesWithProfParams)
    ensures |profParams| == 0 && abcissa == map[] ==> r == Fail(MissingAbcissa)
    ensures |profParams| == 0 && abcissa != map[] && ordinates == map[] ==> r == Fail(MissingOrdinates)
    ensures r == Fail(UnknownProfParam) <==>
      abcissa == map[] && ordinates == map[] && exists p :: p in profParams && p !in halo.paramKeys
  {
    if |profParams| > 0 then
      if abcissa != map[] then Fail(AbcissaWithProfParams)
      else if ordinates != map[] then Fail(OrdinatesWithProfParams)
      else if !(forall p :: p in profParams ==> p in halo.paramKeys) then Fail(UnknownProfParam)
      else Pass
    else if abcissa == map[] then Fail(MissingAbcissa)
    else if ordinates == map[] then Fail(MissingOrdinates)
    else Pass
  }

  /** Every configuration the intended check accepts, the written one rejects. */
  lemma AsWrittenRejectsEveryValidConfiguration(halo: HaloProfileModel, profParams: seq<string>,
                                                abcissa: map<string, seq<real>>, ordinates: map<string, seq<real>>)
    requires SensibleInputs(halo, profParams, abcissa, ordinates).Pass?
    ensures SensibleInputsAsWritten(halo, profParams, abcissa, ordinates).Fail?
  {
  }

  /** The tables the component works with: with a parameter list, every
      listed parameter gets the default abcissa and ordinates; otherwise the
      explicit tables are used as given. Line 371 repeats the identity test of
      line 334, so as written the explicit branch (375-377) never runs; see
      `ConfiguredTablesAsWritten`. This is the intended, emptiness-based
      branch. */
  function ConfiguredTables(profParams: seq<string>, abcissa: map<string, seq<real>>,
                            ordinates: map<string, seq<real>>, defaults: DefaultProfile)
    : (r: (map<string, seq<real>>, map<string, seq<real>>))
    ensures |profParams| > 0 ==>
      && r.0.Keys == (set p | p in profParams) && r.1.Keys == (set p | p in profParams)
      && (forall p :: p in r.0 ==> r.0[p] == defaults.abcissa)
      && (forall p :: p in r.1 ==> r.1[p] == defaults.ordinates)
    ensures |profParams| == 0 ==> r.0 == abcissa && r.1 == ordinates
  {
    if |profParams| > 0 then
      (map p | p in profParams :: defaults.abcissa, map p | p in profParams :: defaults.ordinates)
    else
      (abcissa, ordinates)
  }

  /** Lines 371-377 as written: `input_prof_params is not []` always holds, so
      the default-filling loop always runs and explicit tables are dropped. */
  function ConfiguredTablesAsWritten(profParams: seq<string>, abcissa: map<string, seq<real>>,
                                     ordinates: map<string, seq<real>>, defaults: DefaultProfile)
    : (r: (map<string, seq<real>>, map<string, seq<real>>))
    ensures r.0.Keys == (set p | p in profParams) && r.1.Keys == (set p | p in profParams)
    ensures forall p :: p in r.0 ==> r.0[p] == defaults.abcissa
    ensures forall p :: p in r.1 ==> r.1[p] == defaults.ordinates
  {
    if !IsFreshLiteral(profParams) then
      (map p | p in profParams :: defaults.abcissa, map p | p in profParams :: defaults.ordinates)
    else
      (abcissa, ordinates)
  }

  /** The two readings agree on a parameter list, but as written an explicit
      configuration ends up with no tables at all. */
  lemma ConfiguredTablesAsWrittenDropsExplicitTables(profParams: seq<string>, abcissa: map<string, seq<real>>,
                                                     ordinates: map<string, seq<real>>, defaults: DefaultProfile)
    ensures |profParams| > 0 ==>
      ConfiguredTablesAsWritten(profParams, abcissa, ordinates, defaults) == ConfiguredTables(profParams, abcissa, ordinates, defaults)
    ensures ExplicitMode(profParams, abcissa, ordinates) ==>
      ConfiguredTablesAsWritten(profParams, abcissa, ordinates, defaults) == (map[], map[]) &&
      ConfiguredTables(profParams, abcissa, ordinates, defaults) != (map[], map[])
  {
  }

  /** `abcissa_key`: for each modulated parameter, the store key of its
      abcissa table. */
  function AbcissaKeyIndex(params: set<string>, galType: string): (r: map<string, string>)
    ensures r.Keys == params
    ensures forall p :: p in r ==> r[p] == AbcissaKey(p, galType)
  {
    map p | p in params :: AbcissaKey(p, galType)
  }

  /** `ordinates_key`: for each modulated parameter, the store key of its
      ordinates table. */
  function OrdinatesKeyIndex(params: set<string>, galType: string): (r: map<string, string>)
    ensures r.Keys == params
    ensures forall p :: p in r ==> r[p] == OrdinatesKey(p, galType)
  {
    map p | p in params :: OrdinatesKey(p, galType)
  }

  /** What every constructed component satisfies: a known interpolation
      method, each parameter's abcissa table in the store where the spline
      set-up reads it, the key indexes, and in spline mode one clamped degree
      and one fitted function per parameter. */
  predicate WellFormed(m: RadProfBias) {
    && m.interpolMethod in {SplineMethod, PolynomialMethod}
    && (forall p :: p in m.abcissaDict ==>
          AbcissaKey(p, m.galType) in m.parameterDict && m.parameterDict[AbcissaKey(p, m.galType)] == Table(m.abcissaDict[p]))
    && m.abcissaKey.Keys == m.abcissaDict.Keys
    && m.ordinatesKey.Keys == m.abcissaDict.Keys
    && (forall p :: p in m.abcissaKey ==> m.abcissaKey[p] == AbcissaKey(p, m.galType))
    && (forall p :: p in m.ordinatesKey ==> m.ordinatesKey[p] == OrdinatesKey(p, m.galType))
    && (m.interpolMethod == SplineMethod ==>
          && m.splineDegree.Keys == m.abcissaDict.Keys
          && m.splineFunction.Keys == m.abcissaDict.Keys
          && forall p :: p in m.splineDegree ==> m.splineDegree[p] == SplineDegree(m.inputSplineDegree, |m.abcissaDict[p]|))
  }

  /** The constructor. Checks run in the source's order: the configuration,
      then the interpolation method, then (for splines) the spline set-up. */
  function Construct(galType: string, halo: HaloProfileModel, profParams: seq<string>,
                     abcissa: map<string, seq<real>>, ordinates: map<string, seq<real>>,
                     interpolMethod: string, inputSplineDegree: int,
                     defaults: DefaultProfile, fit: SplineFitter, polynomial: PolynomialFromTable)
    : (r: Result<RadProfBias, Error>)
    ensures SensibleInputs(halo, profParams, abcissa, ordinates).Fail? ==>
      r.Failure? && r.error == SensibleInputs(halo, profParams, abcissa, ordinates).error
    ensures SensibleInputs(halo, profParams, abcissa, ordinates).Pass? && interpolMethod !in {SplineMethod, PolynomialMethod} ==>
      r.Failure? && r.error == InvalidInterpolMethod
    ensures SensibleInputs(halo, profParams, abcissa, ordinates).Pass? && interpolMethod in {SplineMethod, PolynomialMethod} && r.Failure? ==>
      r.error == UnpairedParam
    ensures r.Success? <==>
      && SensibleInputs(halo, profParams, abcissa, ordinates).Pass?
      && interpolMethod in {SplineMethod, PolynomialMethod}
      && (interpolMethod == SplineMethod ==> profParams != [] || abcissa.Keys <= ordinates.Keys)
    ensures r.Success? ==>
      && WellFormed(r.value)
      && r.value.galType == galType
      && r.value.interpolMethod == interpolMethod
      && r.value.inputSplineDegree == inputSplineDegree
      && (r.value.abcissaDict, r.value.ordinatesDict) == ConfiguredTables(profParams, abcissa, ordinates, defaults)
      && r.value.parameterDict == InitialStore(r.value.abcissaDict, r.value.ordinatesDict, galType)
      && r.value.haloProfModel == halo
      && r.value.polynomial == polynomial
    ensures r.Success? && interpolMethod == SplineMethod ==>
      && r.value.abcissaDict.Keys <= r.value.ordinatesDict.Keys
      && forall p :: p in r.value.abcissaDict ==>
           r.value.splineFunction[p] == fit(r.value.abcissaDict[p], r.value.ordinatesDict[p], r.value.splineDegree[p])
  {
    match SensibleInputs(halo, profParams, abcissa, ordinates)
    case Fail(e) => Failure(e)
    case Pass =>
      var tables := ConfiguredTables(profParams, abcissa, ordinates, defaults);
      var store := InitialStore(tables.0, tables.1, galType);
      if interpolMethod !in {SplineMethod, PolynomialMethod} then Failure(InvalidInterpolMethod)
      else if interpolMethod == SplineMethod then
        var setup :- SetupSpline(tables.0, tables.1, inputSplineDegree, fit);
        Success(Assemble(galType, halo, tables.0, tables.1, store, interpolMethod, inputSplineDegree, setup, polynomial))
      else
        Success(Assemble(galType, halo, tables.0, tables.1, store, interpolMethod, inputSplineDegree, SplineSetup(map[], map[]), polynomial))
  }

  /** The component `__init__` leaves behind once the configuration and the
      method are settled: the store, the key indexes and the spline set-up
      (empty for polynomial interpolation). */
  function Assemble(galType: string, halo: HaloProfileModel, abcissaDict: map<string, seq<real>>,
                    ordinatesDict: map<string, seq<real>>, store: Store, interpolMethod: string,
                    inputSplineDegree: int, setup: SplineSetup, polynomial: PolynomialFromTable): (m: RadProfBias)
    requires interpolMethod in {SplineMethod, PolynomialMethod}
    requires forall p :: p in abcissaDict ==> AbcissaKey(p, galType) in store && store[AbcissaKey(p, galType)] == Table(abcissaDict[p])
    requires interpolMethod == SplineMethod ==>
      && setup.degree.Keys == abcissaDict.Keys && setup.fitted.Keys == abcissaDict.Keys
      && forall p :: p in setup.degree ==> setup.degree[p] == SplineDegree(inputSplineDegree, |abcissaDict[p]|)
    ensures WellFormed(m)
    ensures (m.galType, m.haloProfModel, m.abcissaDict, m.ordinatesDict, m.parameterDict) == (galType, halo, abcissaDict, ordinatesDict, store)
    ensures (m.interpolMethod, m.inputSplineDegree, m.polynomial) == (interpolMethod, inputSplineDegree, polynomial)
    ensures (m.splineDegree, m.splineFunction) == (setup.degree, setup.fitted)
  {
    RadProfBias(galType, halo, abcissaDict, ordinatesDict, store,
                AbcissaKeyIndex(abcissaDict.Keys, galType), OrdinatesKeyIndex(abcissaDict.Keys, galType),
                interpolMethod, inputSplineDegree, setup.degree, setup.fitted, polynomial)
  }

  /** A constructed spline model never uses a degree above 5, above the
      requested one, or above one less than the number of abcissa values. */
  lemma ConstructedSplineDegreeBounds(m: RadProfBias, p: string)
    requires WellFormed(m) && m.interpolMethod == SplineMethod && p in m.abcissaDict
    ensures p in m.splineDegree
    ensures m.splineDegree[p] <= ScipyMaxDegree
    ensures m.splineDegree[p] <= m.inputSplineDegree
    ensures m.splineDegree[p] <= |m.abcissaDict[p]| - 1
  {
    assert m.splineDegree[p] == SplineDegree(m.inputSplineDegree, |m.abcissaDict[p]|);
  }
}

=== FILE: decimal.dfy ===
/** Python's `str()` of a non-negative integer: the decimal digits with no
    leading zeros. The key synthesis appends such strings to parameter names. */
module Decimal {

  predicate IsDigit(c: char) {
    '0' <= c <= '9'
  }

  predicate AllDigits(s: string) {
    forall i :: 0 <= i < |s| ==> IsDigit(s[i])
  }

  function DigitChar(d: nat): (c: char)
    requires d < 10
    ensures IsDigit(c)
  {
    ('0' as int + d) as char
  }

  function DigitValue(c: char): (d: nat)
    requires IsDigit(c)
    ensures d < 10
  {
    c as int - '0' as int
  }

  /** `str(n)` for `n >= 0`. */
  function NatToString(n: nat): (s: string)
    ensures 0 < |s|
    ensures AllDigits(s)
    ensures s[0] == '0' ==> n == 0 && s == "0"
    decreases n
  {
    if n < 10 then [DigitChar(n)] else NatToString(n / 10) + [DigitChar(n % 10)]
  }

  /** The number a string of decimal digits denotes (what `int()` reads back). */
  function DigitsValue(s: string): nat
    requires AllDigits(s)
  {
    if |s| == 0 then 0 else DigitsValue(s[..|s| - 1]) * 10 + DigitValue(s[|s| - 1])
  }

  /** Reading back the decimal form of `n` gives `n`. */
  lemma {:induction false} DigitsValueOfNatToString(n: nat)
    ensures DigitsValue(NatToString(n)) == n
    decreases n
  {
    var s := NatToString(n);
    if n >= 10 {
      DigitsValueOfNatToString(n / 10);
      assert s[..|s| - 1] == NatToString(n / 10);
    }
  }

  /** Distinct numbers have distinct decimal forms. */
  lemma NatToStringInjective(a: nat, b: nat)
    requires NatToString(a) == NatToString(b)
    ensures a == b
  {
    DigitsValueOfNatToString(a);
    DigitsValueOfNatToString(b);
  }
}

=== FILE: errors.dfy ===
/** The exceptions `RadProfBias` raises, one constructor per distinct raise
    site. The Python exception class of each is given in its comment. */
module Errors {

  datatype Error =
    /** SyntaxError: a profile-parameter list was passed together with an abcissa dictionary. */
    | AbcissaWithProfParams
    /** SyntaxError: a profile-parameter list was passed together with an ordinates dictionary. */
    | OrdinatesWithProfParams
    /** SyntaxError: a listed profile parameter is not a key of the halo profile model. */
    | UnknownProfParam
    /** SyntaxError: neither a profile-parameter list nor an abcissa dictionary was passed. */
    | MissingAbcissa
    /** SyntaxError: no profile-parameter list and no ordinates dictionary was passed. */
    | MissingOrdinates
    /** KeyError: the spline set-up found abcissa but no ordinates for a parameter. */
    | UnpairedParam
    /** IOError: the interpolation method is neither 'spline' nor 'polynomial'. */
    | InvalidInterpolMethod
    /** TypeError: evaluation was given both positional arrays and a mock. */
    | ArraysAndMock
    /** SyntaxError: evaluation was given neither positional arrays nor a mock. */
    | NoInput
    /** IndexError: more positional arrays than profile-parameter keys. */
    | TooManyArrays
    /** AttributeError: the mock has no attribute of this name. */
    | MissingAttribute(name: string)
    /** KeyError: a dictionary lookup with this key failed. */
    | KeyError(key: string)
}

=== FILE: evaluation.dfy ===
/** Evaluation: `retrieve_input_prof_params` (where the input arrays come
    from), `radprof_modfunc` (the modulation factor of one parameter) and
    `get_modulated_prof_params` (factor times input, per requested key). */
module Evaluation {
  import opened Wrappers
  import opened Errors
  import opened Retrieval
  import opened Construction

  /** A mock galaxy catalogue: one array attribute per column name. */
  datatype MockGalaxies = MockGalaxies(attributes: map<string, seq<real>>)

  /** Input or output arrays keyed by profile-parameter name. */
  type ProfileArrays = map<string, seq<real>>

  /** `keys[j]` does not recur among `keys[j+1..n]`: under last-wins, the
      entry at `j` is the one that survives. */
  predicate LastOccurrence(keys: seq<string>, n: nat, j: nat)
    requires j < n <= |keys|
  {
    forall i :: j < i < n ==> keys[i] != keys[j]
  }

  /** The first `|args|` keys paired with the arrays, in order, a later
      array overwriting an earlier one under a repeated key. */
  function Zip(keys: seq<string>, args: seq<seq<real>>): (m: ProfileArrays)
    requires |args| <= |keys|
    ensures m.Keys == set j | 0 <= j < |args| :: keys[j]
  {
    if |args| == 0 then map[]
    else
      var n := |args| - 1;
      assert (set j | 0 <= j < |args| :: keys[j]) == (set j | 0 <= j < n :: keys[j]) + {keys[n]};
      Zip(keys, args[..n])[keys[n] := args[n]]
  }

  /** Last wins: the array at the last position of a key is the one kept. */
  lemma {:induction false} ZipLastWins(keys: seq<string>, args: seq<seq<real>>, j: nat)
    requires |args| <= |keys| && j < |args| && LastOccurrence(keys, |args|, j)
    ensures keys[j] in Zip(keys, args) && Zip(keys, args)[keys[j]] == args[j]
  {
    var n := |args| - 1;
    if j < n {
      assert LastOccurrence(keys, n, j);
      assert args[..n][j] == args[j];
      ZipLastWins(keys, args[..n], j);
    }
  }

  /** `{prof_param_keys[ii]: value for ii, value in enumerate(args)}`: array
      `ii` goes under key `ii`, a later array winning over an earlier one for
      a repeated key; more arrays than keys raise an IndexError. */
  function PositionalInputs(keys: seq<string>, args: seq<seq<real>>): (r: Result<ProfileArrays, Error>)
    ensures r.Success? <==> |args| <= |keys|
    ensures r.Failure? ==> r.error == TooManyArrays
    ensures r.Success? ==> r.value.Keys == set j | 0 <= j < |args| :: keys[j]
    ensures r.Success? ==> forall j :: 0 <= j < |args| && LastOccurrence(keys, |args|, j) ==> r.value[keys[j]] == args[j]
  {
    if |args| > |keys| then Failure(TooManyArrays)
    else
      assert forall j :: 0 <= j < |args| && LastOccurrence(keys, |args|, j) ==> Zip(keys, args)[keys[j]] == args[j] by {
        forall j | 0 <= j < |args| && LastOccurrence(keys, |args|, j) {
          ZipLastWins(keys, args, j);
        }
      }
      Success(Zip(keys, args))
  }

  /** `{key: getattr(mock_galaxies, key) for key in prof_param_keys}`: the
      mock's column of each key, in key order; the first key the mock lacks
      raises an AttributeError. */
  function MockInputs(keys: seq<string>, mock: MockGalaxies): (r: Result<ProfileArrays, Error>)
    ensures r.Success? <==> forall k :: k in keys ==> k in mock.attributes
    ensures r.Success? ==> r.value.Keys == (set k | k in keys) && forall k :: k in keys ==> r.value[k] == mock.attributes[k]
    ensures r.Failure? ==>
      exists j :: (0 <= j < |keys| && r.error == MissingAttribute(keys[j]) && keys[j] !in mock.attributes &&
                   forall i :: 0 <= i < j ==> keys[i] in mock.attributes)
  {
    if |keys| == 0 then Success(map[])
    else if keys[0] !in mock.attributes then Failure(MissingAttribute(keys[0]))
    else
      var rest :- MockInputs(keys[1..], mock);
      assert forall i :: 1 <= i < |keys| ==> keys[i] == keys[1..][i - 1];
      assert forall k :: k in keys[1..] ==> k in keys;
      Success(rest[keys[0] := mock.attributes[keys[0]]])
  }

  /** The input arrays: positional arrays or a mock, never both, never
      neither. */
  function RetrieveInputProfParams(keys: seq<string>, args: seq<seq<real>>, mock: Option<MockGalaxies>)
    : (r: Result<ProfileArrays, Error>)
    ensures |args| > 0 && mock.Some? ==> r == Failure(ArraysAndMock)
    ensures |args| == 0 && mock.None? ==> r == Failure(NoInput)
    ensures |args| > 0 && mock.None? ==>
      && (r.Success? <==> |args| <= |keys|)
      && (r.Success? ==> r.value.Keys == set j | 0 <= j < |args| :: keys[j])
      && (r.Success? ==> forall j :: 0 <= j < |args| && LastOccurrence(keys, |args|, j) ==> r.value[keys[j]] == args[j])
    ensures |args| == 0 && mock.Some? ==>
      && (r.Success? <==> forall k :: k in keys ==> k in mock.value.attributes)
      && (r.Success? ==> r.value.Keys == set k | k in keys)
      && (r.Success? ==> forall k :: k in keys ==> r.value[k] == mock.value.attributes[k])
  {
    if |args| > 0 then
      if mock.Some? then Failure(ArraysAndMock) else PositionalInputs(keys, args)
    else if mock.Some? then MockInputs(keys, mock.value)
    else Failure(NoInput)
  }

  /** `radprof_modfunc`: the multiplicative factor for `key` at each input
      value. The model's ordinates are retrieved first in both modes, so a
      failed retrieval raises whatever the method; then the polynomial
      through the table, or the pre-fitted spline of `key`, is evaluated
      pointwise. Any other method raises an IOError. */
  function ModulationFactor(m: RadProfBias, key: string, xs: seq<real>): (r: Result<seq<real>, Error>)
    ensures var retrieved := RetrieveModelAbcissaOrdinates(m.abcissaDict, m.parameterDict, m.galType, key);
      && (retrieved.Failure? ==> r == Failure(retrieved.error))
      && (retrieved.Success? && m.interpolMethod !in {SplineMethod, PolynomialMethod} ==> r == Failure(InvalidInterpolMethod))
      && (retrieved.Success? && m.interpolMethod == SplineMethod && key !in m.splineFunction ==> r == Failure(KeyError(key)))
      && (r.Success? <==>
            (retrieved.Success? &&
             (m.interpolMethod == PolynomialMethod || (m.interpolMethod == SplineMethod && key in m.splineFunction))))
    ensures r.Success? ==> |r.value| == |xs|
    ensures var retrieved := RetrieveModelAbcissaOrdinates(m.abcissaDict, m.parameterDict, m.galType, key);
      r.Success? && m.interpolMethod == PolynomialMethod ==> forall j :: 0 <= j < |xs| ==>
        r.value[j] == m.polynomial(retrieved.value.0, retrieved.value.1, xs[j])
    ensures r.Success? && m.interpolMethod == SplineMethod ==> forall j :: 0 <= j < |xs| ==>
      r.value[j] == m.splineFunction[key](xs[j])
  {
    var (abcissa, ordinates) :- RetrieveModelAbcissaOrdinates(m.abcissaDict, m.parameterDict, m.galType, key);
    if m.interpolMethod == PolynomialMethod then
      Success(seq(|xs|, j requires 0 <= j < |xs| => m.polynomial(abcissa, ordinates, xs[j])))
    else if m.interpolMethod == SplineMethod then
      if key in m.splineFunction then Success(seq(|xs|, j requires 0 <= j < |xs| => m.splineFunction[key](xs[j])))
      else Failure(KeyError(key))
    else Failure(InvalidInterpolMethod)
  }

  /** The factor is a function of the input value alone: equal inputs get
      equal factors, wherever they sit in whichever array. */
  lemma ModulationIsPointwise(m: RadProfBias, key: string, xs: seq<real>, ys: seq<real>, i: nat, j: nat)
    requires ModulationFactor(m, key, xs).Success? && ModulationFactor(m, key, ys).Success?
    requires i < |xs| && j < |ys| && xs[i] == ys[j]
    ensures ModulationFactor(m, key, xs).value[i] == ModulationFactor(m, key, ys).value[j]
  {
  }

  /** A constructed component never reaches the IOError branch of the
      evaluation dispatch. */
  lemma WellFormedNeverInvalidMethod(m: RadProfBias, key: string, xs: seq<real>)
    requires WellFormed(m)
    ensures ModulationFactor(m, key, xs) != Failure(InvalidInterpolMethod)
  {
  }

  /** One output array: factor times input, element by element. */
  function ModulateOne(m: RadProfBias, key: string, xs: seq<real>): (r: Result<seq<real>, Error>)
    ensures r.Success? <==> ModulationFactor(m, key, xs).Success?
    ensures r.Failure? ==> r == Failure(ModulationFactor(m, key, xs).error)
    ensures r.Success? ==> |r.value| == |xs|
    ensures r.Success? ==> forall j :: 0 <= j < |xs| ==> r.value[j] == ModulationFactor(m, key, xs).value[j] * xs[j]
  {
    var factor :- ModulationFactor(m, key, xs);
    Success(seq(|xs|, j requires 0 <= j < |xs| => factor[j] * xs[j]))
  }

  /** `e` is the error raised at position `j` of the key loop: every earlier
      key has an input that modulates, and key `j` either has no input (the
      KeyError of the lookup) or fails to modulate with `e`. */
  predicate FirstFailure(m: RadProfBias, keys: seq<string>, inputs: ProfileArrays, e: Error, j: int) {
    && 0 <= j < |keys|
    && (forall i :: 0 <= i < j ==> keys[i] in inputs && ModulateOne(m, keys[i], inputs[keys[i]]).Success?)
    && (keys[j] !in inputs ==> e == KeyError(keys[j]))
    && (keys[j] in inputs ==> ModulateOne(m, keys[j], inputs[keys[j]]) == Failure(e))
  }

  /** The output dictionary: for each requested key in order, its input array
      (a KeyError if absent) modulated by its own factor; the first key that
      fails decides the error. */
  function ModulateAll(m: RadProfBias, keys: seq<string>, inputs: ProfileArrays): (r: Result<ProfileArrays, Error>)
    ensures r.Success? <==> forall k :: k in keys ==> k in inputs && ModulateOne(m, k, inputs[k]).Success?
    ensures r.Success? ==> r.value.Keys == set k | k in keys
    ensures r.Success? ==> forall k :: k in keys ==> r.value[k] == ModulateOne(m, k, inputs[k]).value
    ensures r.Failure? ==> exists j :: FirstFailure(m, keys, inputs, r.error, j)
  {
    if |keys| == 0 then Success(map[])
    else if keys[0] !in inputs then
      assert FirstFailure(m, keys, inputs, KeyError(keys[0]), 0);
      Failure(KeyError(keys[0]))
    else
      var outR := ModulateOne(m, keys[0], inputs[keys[0]]);
      if outR.Failure? then
        assert FirstFailure(m, keys, inputs, outR.error, 0);
        Failure(outR.error)
      else
        var restR := ModulateAll(m, keys[1..], inputs);
        if restR.Failure? then
          var j :| FirstFailure(m, keys[1..], inputs, restR.error, j);
          assert FirstFailure(m, keys, inputs, restR.error, j + 1);
          Failure(restR.error)
        else
          assert forall k :: k in keys ==> k == keys[0] || k in keys[1..];
          Success(restR.value[keys[0] := outR.value])
  }

  /** No cross-parameter coupling: the output for a key depends on that key's
      input array only. */
  lemma NoCrossCoupling(m: RadProfBias, keys: seq<string>, inputs1: ProfileArrays, inputs2: ProfileArrays, k: string)
    requires ModulateAll(m, keys, inputs1).Success? && ModulateAll(m, keys, inputs2).Success?
    requires k in keys && k in inputs1 && k in inputs2 && inputs1[k] == inputs2[k]
    ensures ModulateAll(m, keys, inputs1).value[k] == ModulateAll(m, keys, inputs2).value[k]
  {
  }

  /** `get_modulated_prof_params`: resolve the input arrays, then modulate
      each requested key. */
  function GetModulatedProfParams(m: RadProfBias, keys: seq<string>, args: seq<seq<real>>, mock: Option<MockGalaxies>)
    : (r: Result<ProfileArrays, Error>)
    ensures |args| > 0 && mock.Some? ==> r == Failure(ArraysAndMock)
    ensures |args| == 0 && mock.None? ==> r == Failure(NoInput)
    ensures var inputs := RetrieveInputProfParams(keys, args, mock);
      r.Success? <==> inputs.Success? && ModulateAll(m, keys, inputs.value).Success?
    ensures var inputs := RetrieveInputProfParams(keys, args, mock);
      && (inputs.Failure? ==> r == Failure(inputs.error))
      && (inputs.Success? && r.Failure? ==> r == ModulateAll(m, keys, inputs.value))
    ensures r.Success? ==> r.value.Keys == set k | k in keys
    ensures r.Success? && mock.Some? ==> forall k :: k in keys ==>
      k in mock.value.attributes && ModulateOne(m, k, mock.value.attributes[k]) == Success(r.value[k])
    ensures r.Success? && mock.None? ==> |args| <= |keys| && forall j :: 0 <= j < |args| && LastOccurrence(keys, |args|, j) ==>
      ModulateOne(m, keys[j], args[j]) == Success(r.value[keys[j]])
  {
    if |args| > 0 && mock.Some? then Failure(ArraysAndMock)
    else if |args| == 0 && mock.None? then Failure(NoInput)
    else
      var inputs :- RetrieveInputProfParams(keys, args, mock);
      ModulateAll(m, keys, inputs)
  }

  /** The first `n` keys name at most `n` distinct keys. */
  lemma {:induction false} PrefixKeysBound(keys: seq<string>, n: nat)
    requires n <= |keys|
    ensures |set j | 0 <= j < n :: keys[j]| <= n
  {
    if n > 0 {
      PrefixKeysBound(keys, n - 1);
      assert (set j | 0 <= j < n :: keys[j]) == (set j | 0 <= j < n - 1 :: keys[j]) + {keys[n - 1]};
    }
  }

  /** With positional arrays, every requested key needs an array: fewer
      arrays than distinct keys always fails. */
  lemma TooFewArraysFails(m: RadProfBias, keys: seq<string>, args: seq<seq<real>>)
    requires 0 < |args| < |set k | k in keys|
    ensures GetModulatedProfParams(m, keys, args, None).Failure?
    ensures WellFormed(m) ==> GetModulatedProfParams(m, keys, args, None).error.KeyError?
  {
    var requested := set k | k in keys;
    PrefixKeysBound(keys, |keys|);
    assert requested == set j | 0 <= j < |keys| :: keys[j];
    var named := set j | 0 <= j < |args| :: keys[j];
    PrefixKeysBound(keys, |args|);
    var inputs := RetrieveInputProfParams(keys, args, None);
    assert inputs.Success? && inputs.value.Keys == named;
    assert |requested - named| > 0;
    var missing :| missing in requested - named;
    var r := ModulateAll(m, keys, inputs.value);
    assert r.Failure? by {
      assert missing in keys && missing !in inputs.value;
    }
    assert GetModulatedProfParams(m, keys, args, None) == r;
    if WellFormed(m) {
      var j :| FirstFailure(m, keys, inputs.value, r.error, j);
      if keys[j] in inputs.value {
        WellFormedFailuresAreKeyErrors(m, keys[j], inputs.value[keys[j]]);
      }
    }
  }

  /** On a constructed component every modulation failure is a KeyError:
      retrieval raises only KeyErrors and the IOError branch is never
      reached. */
  lemma WellFormedFailuresAreKeyErrors(m: RadProfBias, key: string, xs: seq<real>)
    requires WellFormed(m)
    ensures ModulateOne(m, key, xs).Failure? ==> ModulateOne(m, key, xs).error.KeyError?
  {
  }

  /** A parameter whose abcissa table the store holds can never be evaluated:
      the table key starts with the parameter's name and is no reader key. */
  lemma ConfiguredParamCannotBeModulated(m: RadProfBias, k: string, xs: seq<real>)
    requires WellFormed(m) && k in m.abcissaDict
    ensures ModulateOne(m, k, xs).Failure?
  {
    AbcissaTableDefeatsRetrieval(m.abcissaDict, m.parameterDict, m.galType, k);
  }

  /** Consequence of the key mismatch: a well-formed component rejects every
      non-empty request, whatever the inputs. A configured parameter fails
      retrieval (see above) and an unconfigured one has no abcissa. */
  lemma WellFormedRejectsEveryRequest(m: RadProfBias, keys: seq<string>, args: seq<seq<real>>,
                                      mock: Option<MockGalaxies>)
    requires WellFormed(m) && |keys| > 0
    ensures GetModulatedProfParams(m, keys, args, mock).Failure?
  {
    var k := keys[0];
    var inputs := RetrieveInputProfParams(keys, args, mock);
    if inputs.Success? && k in inputs.value && k in m.abcissaDict {
      ConfiguredParamCannotBeModulated(m, k, inputs.value[k]);
    }
  }

  /** The same for a component fresh from the constructor. */
  lemma ConstructedModelRejectsEveryRequest(
    galType: string, halo: HaloProfileModel, profParams: seq<string>,
    abcissa: map<string, seq<real>>, ordinates: map<string, seq<real>>,
    interpolMethod: string, inputSplineDegree: int,
    defaults: DefaultProfile, fit: Spline.SplineFitter, polynomial: PolynomialFromTable,
    keys: seq<string>, args: seq<seq<real>>, mock: Option<MockGalaxies>)
    requires Construct(galType, halo, profParams, abcissa, ordinates, interpolMethod, inputSplineDegree,
                       defaults, fit, polynomial).Success?
    requires |keys| > 0
    ensures var m := Construct(galType, halo, profParams, abcissa, ordinates, interpolMethod, inputSplineDegree,
                               defaults, fit, polynomial).value;
      GetModulatedProfParams(m, keys, args, mock).Failure?
  {
    var m := Construct(galType, halo, profParams, abcissa, ordinates, interpolMethod, inputSplineDegree,
                       defaults, fit, polynomial).value;
    WellFormedRejectsEveryRequest(m, keys, args, mock);
  }
}

=== FILE: keys.dfy ===
/** The storage keys `RadProfBias` synthesises from a profile-parameter name,
    an ordinate index and the galaxy-type tag.

    Two formats coexist in the source and they disagree:
    - the WRITER (`set_parameter_dict`) names ordinate `i` of `param` as
      `<param>_biasfunc_par<i>_<gal_type>`, counting from 0;
    - the READER (`retrieve_model_abcissa_ordinates`) looks ordinate `i` up
      under `<param>_biasfunc_par<i+1><gal_type>`, counting from 1 and with
      no `_` before the tag.
    Both are modelled as written; `ReaderKeyIsNeverWritten` shows that no key
    the writer side produces is ever one the reader asks for. */
module Keys {
  import opened Decimal

  const BiasFuncTag: string := "_biasfunc_par"
  const AbcissaTag: string := "_model_abcissa_"
  const OrdinatesTag: string := "_model_ordinates_"

  /** Key under which ordinate `index` (0-based) of `param` is written: the
      stem `param + "_biasfunc_par"`, then decimal digits reading `index`
      with no leading zero, then `_` and the galaxy type. */
  function WriterKey(param: string, index: nat, galType: string): (k: string)
    ensures var stem, tail := param + BiasFuncTag, "_" + galType;
      && |stem| < |k| - |tail| && k[..|stem|] == stem && k[|k| - |tail|..] == tail
      && AllDigits(k[|stem|..|k| - |tail|]) && DigitsValue(k[|stem|..|k| - |tail|]) == index
      && (k[|stem|] == '0' ==> |k| - |tail| == |stem| + 1)
  {
    var stem, digits, tail := param + BiasFuncTag, NatToString(index), "_" + galType;
    var k := stem + digits + tail;
    assert k == stem + digits + "_" + galType;
    assert k[..|stem|] == stem && k[|k| - |tail|..] == tail && k[|stem|..|k| - |tail|] == digits;
    assert k[|stem|] == digits[0];
    DigitsValueOfNatToString(index);
    k
  }

  /** Key under which ordinate `index` (0-based position in the rebuilt list)
      of `param` is read back: the stem, then decimal digits reading
      `index + 1` with no leading zero, then the galaxy type with no
      separator. */
  function ReaderKey(param: string, index: nat, galType: string): (k: string)
    ensures var stem := param + BiasFuncTag;
      && |stem| < |k| - |galType| && k[..|stem|] == stem && k[|k| - |galType|..] == galType
      && AllDigits(k[|stem|..|k| - |galType|]) && DigitsValue(k[|stem|..|k| - |galType|]) == index + 1
      && (k[|stem|] == '0' ==> |k| - |galType| == |stem| + 1)
  {
    var stem, digits := param + BiasFuncTag, NatToString(index + 1);
    var k := stem + digits + galType;
    assert k[..|stem|] == stem && k[|k| - |galType|..] == galType && k[|stem|..|k| - |galType|] == digits;
    assert k[|stem|] == digits[0];
    DigitsValueOfNatToString(index + 1);
    k
  }

  /** Key naming the abcissa table of `param`: the parameter name, then
      `_model_abcissa_`, then the galaxy type. It starts with the parameter
      name, so the reader's prefix filter for `param` keeps it. */
  function AbcissaKey(param: string, galType: string): (k: string)
    ensures |param| < |k| && k[..|param|] == param
  {
    var k := param + AbcissaTag + galType;
    assert k[..|param|] == param;
    k
  }

  /** Key naming the ordinates table of `param`: the parameter name, then
      `_model_ordinates_`, then the galaxy type. It too starts with the
      parameter name. */
  function OrdinatesKey(param: string, galType: string): (k: string)
    ensures |param| < |k| && k[..|param|] == param
  {
    var k := param + OrdinatesTag + galType;
    assert k[..|param|] == param;
    k
  }

  /** The table keys parse back: the parameter name, then the tag, then the
      galaxy type. */
  lemma TableKeyFormat(param: string, galType: string)
    ensures var a, o := AbcissaKey(param, galType), OrdinatesKey(param, galType);
      && |a| == |param| + |AbcissaTag| + |galType| && a[|a| - |galType|..] == galType
      && a[|param|..|a| - |galType|] == AbcissaTag
      && |o| == |param| + |OrdinatesTag| + |galType| && o[|o| - |galType|..] == galType
      && o[|param|..|o| - |galType|] == OrdinatesTag
  {
  }

  /** Two keys that end with the same tag are equal only if what precedes
      the tag is equal. */
  lemma SuffixCancel(a: string, b: string, tag: string)
    requires a + tag == b + tag
    ensures a == b
  {
    assert |a| == |b|;
    assert a == (a + tag)[..|a|];
    assert b == (b + tag)[..|b|];
  }

  /** Splitting a string at its trailing run of digits is unique when the part
      before the digits ends with a non-digit. */
  lemma DigitSuffixSplit(a1: string, s1: string, a2: string, s2: string)
    requires 0 < |a1| && !IsDigit(a1[|a1| - 1]) && AllDigits(s1)
    requires 0 < |a2| && !IsDigit(a2[|a2| - 1]) && AllDigits(s2)
    requires a1 + s1 == a2 + s2
    ensures a1 == a2 && s1 == s2
  {
    var w := a1 + s1;
    // the last non-digit of `w` sits just before the shorter digit run
    assert w[|a1| - 1] == a1[|a1| - 1];
    assert w[|a2| - 1] == a2[|a2| - 1];
    assert |s1| == |s2|;
    assert a1 == w[..|a1|];
    assert a2 == w[..|a2|];
    assert s1 == w[|a1|..];
    assert s2 == w[|a2|..];
  }

  /** `param + "_biasfunc_par"` ends with `r`, which is not a digit. */
  lemma StemEndsWithNonDigit(param: string)
    ensures var stem := param + BiasFuncTag;
      0 < |stem| && !IsDigit(stem[|stem| - 1])
  {
    var stem := param + BiasFuncTag;
    assert stem[|stem| - 1] == 'r';
  }

  /** For a fixed galaxy type, distinct (parameter, index) pairs get distinct
      writer keys: the renaming keeps ordinates of different parameters apart. */
  lemma WriterKeyInjective(p1: string, i1: nat, p2: string, i2: nat, galType: string)
    requires WriterKey(p1, i1, galType) == WriterKey(p2, i2, galType)
    ensures p1 == p2 && i1 == i2
  {
    var a1, a2 := p1 + BiasFuncTag, p2 + BiasFuncTag;
    var s1, s2 := NatToString(i1), NatToString(i2);
    SuffixCancel(a1 + s1 + "_", a2 + s2 + "_", galType);
    SuffixCancel(a1 + s1, a2 + s2, "_");
    StemEndsWithNonDigit(p1);
    StemEndsWithNonDigit(p2);
    DigitSuffixSplit(a1, s1, a2, s2);
    NatToStringInjective(i1, i2);
    SuffixCancel(p1, p2, BiasFuncTag);
  }

  /** For a fixed galaxy type, distinct (parameter, index) pairs are looked up
      under distinct reader keys. */
  lemma ReaderKeyInjective(p1: string, i1: nat, p2: string, i2: nat, galType: string)
    requires ReaderKey(p1, i1, galType) == ReaderKey(p2, i2, galType)
    ensures p1 == p2 && i1 == i2
  {
    var a1, a2 := p1 + BiasFuncTag, p2 + BiasFuncTag;
    var s1, s2 := NatToString(i1 + 1), NatToString(i2 + 1);
    SuffixCancel(a1 + s1, a2 + s2, galType);
    StemEndsWithNonDigit(p1);
    StemEndsWithNonDigit(p2);
    DigitSuffixSplit(a1, s1, a2, s2);
    NatToStringInjective(i1 + 1, i2 + 1);
    SuffixCancel(p1, p2, BiasFuncTag);
  }

  /** Stripped of the galaxy-type tag, a reader key ends with a digit. */
  lemma ReaderStemEndsWithDigit(param: string, index: nat, galType: string)
    ensures var stem := param + BiasFuncTag + NatToString(index + 1);
      ReaderKey(param, index, galType) == stem + galType && IsDigit(stem[|stem| - 1])
  {
    var digits := NatToString(index + 1);
    var stem := param + BiasFuncTag + digits;
    assert stem[|stem| - 1] == digits[|digits| - 1];
  }

  /** No key the writer side synthesises -- an ordinate key of any parameter
      and index, or an abcissa or ordinates table key -- is ever a key the
      reader looks up, for the same galaxy type. */
  lemma ReaderKeyIsNeverWritten(p: string, i: nat, q: string, j: nat, galType: string)
    ensures ReaderKey(p, i, galType) != WriterKey(q, j, galType)
    ensures ReaderKey(p, i, galType) != AbcissaKey(q, galType)
    ensures ReaderKey(p, i, galType) != OrdinatesKey(q, galType)
  {
    var stem := p + BiasFuncTag + NatToString(i + 1);
    ReaderStemEndsWithDigit(p, i, galType);
    var others := [q + BiasFuncTag + NatToString(j) + "_", q + AbcissaTag, q + OrdinatesTag];
    forall k | 0 <= k < 3
      ensures stem + galType != others[k] + galType
    {
      var other := others[k];
      assert other[|other| - 1] == '_';
      if stem + galType == other + galType {
        SuffixCancel(stem, other, galType);
        assert false;
      }
    }
    assert WriterKey(q, j, galType) == others[0] + galType;
    assert AbcissaKey(q, galType) == others[1] + galType;
    assert OrdinatesKey(q, galType) == others[2] + galType;
  }

  /** Different parameters get different table keys. */
  lemma TableKeysInjective(p1: string, p2: string, galType: string)
    ensures AbcissaKey(p1, galType) == AbcissaKey(p2, galType) ==> p1 == p2
    ensures OrdinatesKey(p1, galType) == OrdinatesKey(p2, galType) ==> p1 == p2
  {
    if AbcissaKey(p1, galType) == AbcissaKey(p2, galType) {
      SuffixCancel(p1 + AbcissaTag, p2 + AbcissaTag, galType);
      SuffixCancel(p1, p2, AbcissaTag);
    }
    if OrdinatesKey(p1, galType) == OrdinatesKey(p2, galType) {
      SuffixCancel(p1 + OrdinatesTag, p2 + OrdinatesTag, galType);
      SuffixCancel(p1, p2, OrdinatesTag);
    }
  }

  /** The three writer-side key families never collide with one another. */
  lemma KeyFamiliesDisjoint(p: string, i: nat, q: string, galType: string)
    ensures WriterKey(p, i, galType) != AbcissaKey(q, galType)
    ensures WriterKey(p, i, galType) != OrdinatesKey(q, galType)
    ensures AbcissaKey(p, galType) != OrdinatesKey(q, galType)
  {
    var digits := NatToString(i);
    var w := p + BiasFuncTag + digits + "_";
    var a := q + AbcissaTag;
    var o := q + OrdinatesTag;
    var pa := p + AbcissaTag;
    // just before the final `_`: a digit, `a` (of "abcissa") or `s` (of "ordinates")
    assert w[|w| - 2] == digits[|digits| - 1];
    assert a[|a| - 2] == 'a' && pa[|pa| - 2] == 'a';
    assert o[|o| - 2] == 's';
    assert WriterKey(p, i, galType) == w + galType;
    if w + galType == a + galType {
      SuffixCancel(w, a, galType);
    }
    if w + galType == o + galType {
      SuffixCancel(w, o, galType);
    }
    if pa + galType == o + galType {
      SuffixCancel(pa, o, galType);
    }
  }

  /** The concrete formats: ordinal 2 of `conc` for `satellites` is written
      under `conc_biasfunc_par2_satellites` but read from
      `conc_biasfunc_par3satellites`. */
  lemma KeyFormatExample()
    ensures WriterKey("conc", 2, "satellites") == "conc_biasfunc_par2_satellites"
    ensures ReaderKey("conc", 2, "satellites") == "conc_biasfunc_par3satellites"
  {
    assert NatToString(2) == "2";
    assert NatToString(3) == "3";
    assert "conc" + BiasFuncTag == "conc_biasfunc_par";
    assert "conc_biasfunc_par" + "2" + "_" + "satellites" == "conc_biasfunc_par2_satellites";
    assert "conc_biasfunc_par" + "3" + "satellites" == "conc_biasfunc_par3satellites";
  }
}

=== FILE: retrieval.dfy ===
/** `retrieve_model_abcissa_ordinates`: rebuilding the up-to-date ordinate
    list of one profile parameter from the flat parameter store. The store
    has no order, so the source first collects every entry whose key starts
    with the parameter name and then reads entry `i` back, for `i` below the
    number collected, under the reader key of index `i`. */
module Retrieval {
  import opened Wrappers
  import opened Errors
  import opened Keys
  import opened ParameterStore

  /** The entries whose key begins with `param`, each with its value in the
      store: a part of the store, nothing added or changed. */
  function RelevantSubDict(store: Store, param: string): (sub: Store)
    ensures sub.Keys <= store.Keys
    ensures forall k :: k in sub ==> sub[k] == store[k]
  {
    map k | k in store && param <= k :: store[k]
  }

  /** The filter is the source's slice test `key[0:len(param)] == param`: a
      key shorter than `param` slices to itself and so never matches, and a
      longer one matches when its first `len(param)` characters are `param`. */
  lemma RelevantSubDictIsSliceTest(store: Store, param: string, k: string)
    ensures k in RelevantSubDict(store, param) <==> k in store && |param| <= |k| && k[..|param|] == param
  {
  }

  /** The keys the reader asks for when rebuilding `n` ordinates. */
  function ReaderKeys(param: string, galType: string, n: nat): set<string> {
    set i | 0 <= i < n :: ReaderKey(param, i, galType)
  }

  /** Every reader key of `param` passes the prefix filter for `param`. */
  lemma ReaderKeyHasPrefix(param: string, i: nat, galType: string)
    ensures param <= ReaderKey(param, i, galType)
  {
    var key := ReaderKey(param, i, galType);
    assert key[..|param|] == param;
  }

  /** Reading one more ordinate asks for exactly one fresh reader key. */
  lemma ReaderKeysStep(param: string, galType: string, n: nat)
    ensures ReaderKey(param, n, galType) !in ReaderKeys(param, galType, n)
    ensures ReaderKeys(param, galType, n + 1) == ReaderKeys(param, galType, n) + {ReaderKey(param, n, galType)}
  {
  }

  /** Reading `n` ordinates asks for `n` distinct keys. */
  lemma {:induction false} ReaderKeysCount(param: string, galType: string, n: nat)
    ensures |ReaderKeys(param, galType, n)| == n
  {
    if n > 0 {
      ReaderKeysCount(param, galType, n - 1);
      ReaderKeysStep(param, galType, n - 1);
    }
  }

  /** A subset as large as its finite superset is the whole of it. */
  lemma SubsetOfSameSize<T>(a: set<T>, b: set<T>)
    requires a <= b && |a| == |b|
    ensures a == b
  {
    var d := b - a;
    assert b == a + d;
    assert a * d == {};
    assert |d| == 0;
  }

  /** Reads the first `n` ordinates of `param` out of `sub` in index order,
      raising a KeyError for the first index whose reader key is missing. */
  function CollectOrdinates(sub: Store, param: string, galType: string, n: nat): (r: Result<seq<Entry>, Error>)
    ensures r.Success? <==> forall i :: 0 <= i < n ==> ReaderKey(param, i, galType) in sub
    ensures r.Success? ==> |r.value| == n
    ensures r.Success? ==> forall i :: 0 <= i < n ==> r.value[i] == sub[ReaderKey(param, i, galType)]
    ensures r.Failure? ==>
      exists j :: (0 <= j < n && r.error == KeyError(ReaderKey(param, j, galType)) &&
                   ReaderKey(param, j, galType) !in sub &&
                   forall i :: 0 <= i < j ==> ReaderKey(param, i, galType) in sub)
  {
    if n == 0 then Success([])
    else
      var earlier :- CollectOrdinates(sub, param, galType, n - 1);
      var key := ReaderKey(param, n - 1, galType);
      if key in sub then Success(earlier + [sub[key]]) else Failure(KeyError(key))
  }

  /** The abcissa of `param` and its up-to-date ordinates. The abcissa is the
      configured one, unchanged; the ordinate list has one entry per store key
      that starts with `param`, entry `i` being the value under the reader key
      of index `i`. A missing parameter or a missing reader key raises a
      KeyError. */
  function RetrieveModelAbcissaOrdinates(abcissaDict: map<string, seq<real>>, store: Store, galType: string,
                                         param: string): (r: Result<(seq<real>, seq<Entry>), Error>)
    ensures param !in abcissaDict ==> r == Failure(KeyError(param))
    ensures r.Success? ==> param in abcissaDict && r.value.0 == abcissaDict[param]
    ensures r.Success? ==> |r.value.1| == |RelevantSubDict(store, param)|
    ensures r.Success? ==> forall i :: 0 <= i < |r.value.1| ==>
      ReaderKey(param, i, galType) in store && r.value.1[i] == store[ReaderKey(param, i, galType)]
    ensures param in abcissaDict && r.Failure? ==>
      exists j :: (0 <= j < |RelevantSubDict(store, param)| &&
                   r.error == KeyError(ReaderKey(param, j, galType)) && ReaderKey(param, j, galType) !in store &&
                   forall i :: 0 <= i < j ==> ReaderKey(param, i, galType) in store)
  {
    if param !in abcissaDict then Failure(KeyError(param))
    else
      var sub := RelevantSubDict(store, param);
      var ordinates :- CollectOrdinates(sub, param, galType, |sub|);
      Success((abcissaDict[param], ordinates))
  }

  /** Retrieval succeeds exactly when the parameter is configured and the
      store keys starting with its name are precisely the reader keys of
      indices 0 to n-1, n being how many there are. */
  lemma RetrieveSucceedsIff(abcissaDict: map<string, seq<real>>, store: Store, galType: string, param: string)
    ensures var sub := RelevantSubDict(store, param);
      RetrieveModelAbcissaOrdinates(abcissaDict, store, galType, param).Success? <==>
        param in abcissaDict && sub.Keys == ReaderKeys(param, galType, |sub|)
  {
    var sub := RelevantSubDict(store, param);
    var n := |sub|;
    var wanted := ReaderKeys(param, galType, n);
    if param in abcissaDict {
      var r := CollectOrdinates(sub, param, galType, n);
      if r.Success? {
        assert wanted <= sub.Keys;
        ReaderKeysCount(param, galType, n);
        assert |sub.Keys| == n;
        SubsetOfSameSize(wanted, sub.Keys);
      }
      if sub.Keys == wanted {
        forall i | 0 <= i < n ensures ReaderKey(param, i, galType) in sub {
          assert ReaderKey(param, i, galType) in wanted;
        }
      }
    }
  }

  /** A store key that starts with `param` but is not one of its reader keys
      makes retrieval fail. */
  lemma ForeignKeyDefeatsRetrieval(abcissaDict: map<string, seq<real>>, store: Store, galType: string,
                                   param: string, key: string)
    requires key in store && param <= key
    requires forall i: nat :: key != ReaderKey(param, i, galType)
    ensures RetrieveModelAbcissaOrdinates(abcissaDict, store, galType, param).Failure?
  {
    RetrieveSucceedsIff(abcissaDict, store, galType, param);
    var sub := RelevantSubDict(store, param);
    assert key in sub.Keys;
    assert key !in ReaderKeys(param, galType, |sub|);
  }

  /** Ordinates stored the way the writer names them (0-based, `_` before the
      galaxy type) can never be read back: as soon as one such key of
      `param` is in the store, retrieval of `param` fails. */
  lemma WrittenOrdinateDefeatsRetrieval(abcissaDict: map<string, seq<real>>, store: Store, galType: string,
                                        param: string, i: nat)
    requires WriterKey(param, i, galType) in store
    ensures RetrieveModelAbcissaOrdinates(abcissaDict, store, galType, param).Failure?
  {
    var key := WriterKey(param, i, galType);
    assert key[..|param|] == param;
    forall j: nat ensures key != ReaderKey(param, j, galType) {
      ReaderKeyIsNeverWritten(param, j, param, i, galType);
    }
    ForeignKeyDefeatsRetrieval(abcissaDict, store, galType, param, key);
  }

  /** The parameter's own abcissa table in the store makes its retrieval
      fail, since the table key also starts with the parameter name. */
  lemma AbcissaTableDefeatsRetrieval(abcissaDict: map<string, seq<real>>, store: Store, galType: string,
                                     param: string)
    requires AbcissaKey(param, galType) in store
    ensures RetrieveModelAbcissaOrdinates(abcissaDict, store, galType, param).Failure?
  {
    var key := AbcissaKey(param, galType);
    assert key[..|param|] == param;
    forall j: nat ensures key != ReaderKey(param, j, galType) {
      ReaderKeyIsNeverWritten(param, j, param, 0, galType);
    }
    ForeignKeyDefeatsRetrieval(abcissaDict, store, galType, param, key);
  }

  /** Another parameter whose name extends `param` (`conc_sat` for `conc`,
      say) spoils the prefix filter: any of its reader keys in the store makes
      retrieval of `param` fail, since reader keys of different parameters
      never coincide. */
  lemma LongerParamDefeatsRetrieval(abcissaDict: map<string, seq<real>>, store: Store, galType: string,
                                    param: string, other: string, j: nat)
    requires param < other
    requires ReaderKey(other, j, galType) in store
    ensures RetrieveModelAbcissaOrdinates(abcissaDict, store, galType, param).Failure?
  {
    var key := ReaderKey(other, j, galType);
    assert key[..|other|] == other;
    assert key[..|param|] == param;
    forall i: nat ensures key != ReaderKey(param, i, galType) {
      if key == ReaderKey(param, i, galType) {
        ReaderKeyInjective(other, j, param, i, galType);
      }
    }
    ForeignKeyDefeatsRetrieval(abcissaDict, store, galType, param, key);
  }
}

=== FILE: spline.dfy ===
/** `_setup_spline`: one spline per modulated profile parameter, its degree
    clamped to what the fitting routine accepts. The fitting routine itself is
    outside the model; it is passed in as a function. */
module Spline {
  import opened Wrappers
  import opened Errors

  /** Highest spline degree the fitting routine supports. */
  const ScipyMaxDegree: int := 5

  /** Fits a spline of the given degree through (abcissa, ordinates) pairs
      and returns it as a function of one variable. */
  type SplineFitter = (seq<real>, seq<real>, int) -> (real -> real)

  /** `np.min([5, input_spline_degree, len(abcissa) - 1])`: the requested
      degree, lowered to at most 5 and at most one less than the number of
      abcissa values. */
  function SplineDegree(requested: int, abcissaCount: nat): (d: int)
    ensures d <= ScipyMaxDegree && d <= requested && d <= abcissaCount - 1
    ensures d == ScipyMaxDegree || d == requested || d == abcissaCount - 1
  {
    var d0 := if requested < ScipyMaxDegree then requested else ScipyMaxDegree;
    if abcissaCount - 1 < d0 then abcissaCount - 1 else d0
  }

  /** Three instances of the clamp: 2 abcissa values and degree 3 give 1,
      6 values and degree 3 give 3, 6 values and degree 7 give 5. */
  lemma SplineDegreeExamples()
    ensures SplineDegree(3, 2) == 1
    ensures SplineDegree(3, 6) == 3
    ensures SplineDegree(7, 6) == 5
  {
  }

  /** Per-parameter spline degree and fitted spline. */
  datatype SplineSetup = SplineSetup(degree: map<string, int>, fitted: map<string, real -> real>)

  /** Fits one spline per parameter of `abcissa`, reading its ordinates from
      `ordinates`; a parameter without ordinates raises the lookup's KeyError. */
  function SetupSpline(abcissa: map<string, seq<real>>, ordinates: map<string, seq<real>>,
                       requested: int, fit: SplineFitter): (r: Result<SplineSetup, Error>)
    ensures r.Success? <==> abcissa.Keys <= ordinates.Keys
    ensures r.Failure? ==> r.error == UnpairedParam
    ensures r.Success? ==> r.value.degree.Keys == abcissa.Keys && r.value.fitted.Keys == abcissa.Keys
    ensures r.Success? ==> forall p :: p in abcissa ==>
      && r.value.degree[p] <= ScipyMaxDegree
      && r.value.degree[p] <= requested
      && r.value.degree[p] <= |abcissa[p]| - 1
      && (r.value.degree[p] == ScipyMaxDegree || r.value.degree[p] == requested || r.value.degree[p] == |abcissa[p]| - 1)
    ensures r.Success? ==> forall p :: p in abcissa ==>
      r.value.fitted[p] == fit(abcissa[p], ordinates[p], r.value.degree[p])
  {
    if !(abcissa.Keys <= ordinates.Keys) then Failure(UnpairedParam)
    else
      var degree := map p | p in abcissa :: SplineDegree(requested, |abcissa[p]|);
      Success(SplineSetup(degree, map p | p in abcissa :: fit(abcissa[p], ordinates[p], degree[p])))
  }
}

=== FILE: store.dfy ===
/** The flat, string-keyed parameter store (`parameter_dict`) through which an
    outside optimiser reads and rewrites the model's ordinates, and the
    entries `set_parameter_dict` writes into it. */
module ParameterStore {
  import opened Keys

  /** A store value: a single ordinate, or a whole abcissa/ordinates table
      (the spline set-up reads tables out of the same dictionary). */
  datatype Entry = Scalar(x: real) | Table(xs: seq<real>)

  type Store = map<string, Entry>

  /** The keys the writer uses for the first `n` ordinates of `param`. */
  function WrittenKeys(param: string, galType: string, n: nat): set<string> {
    set i | 0 <= i < n :: WriterKey(param, i, galType)
  }

  /** Extending the ordinate count by one adds exactly one fresh writer key. */
  lemma WrittenKeysStep(param: string, galType: string, n: nat)
    ensures WriterKey(param, n, galType) !in WrittenKeys(param, galType, n)
    ensures WrittenKeys(param, galType, n + 1) == WrittenKeys(param, galType, n) + {WriterKey(param, n, galType)}
  {
    if WriterKey(param, n, galType) in WrittenKeys(param, galType, n) {
      var i :| 0 <= i < n && WriterKey(param, i, galType) == WriterKey(param, n, galType);
      WriterKeyInjective(param, i, param, n, galType);
    }
  }

  /** The writer names `n` distinct keys for `n` ordinates. */
  lemma {:induction false} WrittenKeysCount(param: string, galType: string, n: nat)
    ensures |WrittenKeys(param, galType, n)| == n
  {
    if n > 0 {
      WrittenKeysCount(param, galType, n - 1);
      WrittenKeysStep(param, galType, n - 1);
    }
  }

  /** The renamed ordinate entries of one parameter: ordinate `ii` goes under
      `WriterKey(param, ii, galType)`, inserted in index order. There is
      exactly one key per ordinate and each holds its own ordinate. */
  function OrdinateEntries(param: string, ordinates: seq<real>, galType: string): (m: Store)
    ensures m.Keys == WrittenKeys(param, galType, |ordinates|)
    ensures forall i :: 0 <= i < |ordinates| ==> m[WriterKey(param, i, galType)] == Scalar(ordinates[i])
    decreases |ordinates|
  {
    if |ordinates| == 0 then map[]
    else
      var n := |ordinates| - 1;
      var earlier := OrdinateEntries(param, ordinates[..n], galType);
      var key := WriterKey(param, n, galType);
      WrittenKeysStep(param, galType, n);
      assert key !in earlier;
      assert earlier.Keys + {key} == WrittenKeys(param, galType, n + 1);
      earlier[key := Scalar(ordinates[n])]
  }

  /** Exactly one entry per ordinate: no two ordinates share a key. */
  lemma OrdinateEntriesCount(param: string, ordinates: seq<real>, galType: string)
    ensures |OrdinateEntries(param, ordinates, galType)| == |ordinates|
  {
    var m := OrdinateEntries(param, ordinates, galType);
    WrittenKeysCount(param, galType, |ordinates|);
    assert |m| == |m.Keys|;
  }

  /** Across all parameters and indices, the renaming at lines 403-408 gives
      distinct (parameter, index) pairs distinct keys. */
  lemma AllWriterKeysDistinct(galType: string)
    ensures forall p, i: nat, q, j: nat :: WriterKey(p, i, galType) == WriterKey(q, j, galType) ==> p == q && i == j
  {
    forall p, i: nat, q, j: nat | WriterKey(p, i, galType) == WriterKey(q, j, galType)
      ensures p == q && i == j
    {
      WriterKeyInjective(p, i, q, j, galType);
    }
  }

  /** Each parameter's abcissa table under its abcissa key (lines 427-428, 445). */
  function AbcissaTables(abcissa: map<string, seq<real>>, galType: string): (m: Store)
    ensures forall p :: p in abcissa ==> AbcissaKey(p, galType) in m && m[AbcissaKey(p, galType)] == Table(abcissa[p])
    ensures forall k :: k in m ==> exists p :: p in abcissa && k == AbcissaKey(p, galType)
  {
    assert forall p, q :: AbcissaKey(p, galType) == AbcissaKey(q, galType) ==> p == q by {
      forall p, q ensures AbcissaKey(p, galType) == AbcissaKey(q, galType) ==> p == q {
        TableKeysInjective(p, q, galType);
      }
    }
    map p | p in abcissa :: AbcissaKey(p, galType) := Table(abcissa[p])
  }

  /** Each parameter's ordinates table under its ordinates key (lines 429-430, 449). */
  function OrdinateTables(ordinates: map<string, seq<real>>, galType: string): (m: Store)
    ensures forall p :: p in ordinates ==> OrdinatesKey(p, galType) in m && m[OrdinatesKey(p, galType)] == Table(ordinates[p])
    ensures forall k :: k in m ==> exists p :: p in ordinates && k == OrdinatesKey(p, galType)
  {
    assert forall p, q :: OrdinatesKey(p, galType) == OrdinatesKey(q, galType) ==> p == q by {
      forall p, q ensures OrdinatesKey(p, galType) == OrdinatesKey(q, galType) ==> p == q {
        TableKeysInjective(p, q, galType);
      }
    }
    map p | p in ordinates :: OrdinatesKey(p, galType) := Table(ordinates[p])
  }

  /** Every (parameter, ordinate index) pair of an ordinates dictionary. */
  function OrdinatePositions(ordinates: map<string, seq<real>>): set<(string, nat)> {
    set p, i: nat | p in ordinates && i < |ordinates[p]| :: (p, i)
  }

  /** The writer keys of distinct positions are distinct. */
  lemma PositionKeysInjective(ordinates: map<string, seq<real>>, galType: string)
    ensures var positions := OrdinatePositions(ordinates);
      forall a, b :: a in positions && b in positions && WriterKey(a.0, a.1, galType) == WriterKey(b.0, b.1, galType) ==> a == b
  {
    AllWriterKeysDistinct(galType);
  }

  /** The comprehension behind `RenamedOrdinates`, one entry per position. */
  function RenamedEntries(ordinates: map<string, seq<real>>, galType: string): Store {
    PositionKeysInjective(ordinates, galType);
    map pos | pos in OrdinatePositions(ordinates) :: WriterKey(pos.0, pos.1, galType) := Scalar(ordinates[pos.0][pos.1])
  }

  /** The keys of `RenamedEntries` are the writer keys of all positions. */
  lemma RenamedEntriesKeys(ordinates: map<string, seq<real>>, galType: string)
    ensures RenamedEntries(ordinates, galType).Keys == set p, i: nat | p in ordinates && i < |ordinates[p]| :: WriterKey(p, i, galType)
  {
    var m := RenamedEntries(ordinates, galType);
    var positions := OrdinatePositions(ordinates);
    var written := set p, i: nat | p in ordinates && i < |ordinates[p]| :: WriterKey(p, i, galType);
    forall k | k in m.Keys ensures k in written {
      var pos :| pos in positions && k == WriterKey(pos.0, pos.1, galType);
    }
    forall k | k in written ensures k in m.Keys {
      var p, i: nat :| p in ordinates && i < |ordinates[p]| && k == WriterKey(p, i, galType);
      assert (p, i) in positions;
    }
  }

  /** `RenamedEntries` holds each ordinate under its writer key. */
  lemma RenamedEntriesValues(ordinates: map<string, seq<real>>, galType: string)
    ensures var m := RenamedEntries(ordinates, galType);
      forall p, i :: p in ordinates && 0 <= i < |ordinates[p]| ==>
        WriterKey(p, i, galType) in m && m[WriterKey(p, i, galType)] == Scalar(ordinates[p][i])
  {
    var m := RenamedEntries(ordinates, galType);
    var positions := OrdinatePositions(ordinates);
    PositionKeysInjective(ordinates, galType);
    forall p, i | p in ordinates && 0 <= i < |ordinates[p]|
      ensures WriterKey(p, i, galType) in m && m[WriterKey(p, i, galType)] == Scalar(ordinates[p][i])
    {
      var pos := (p, i as nat);
      assert pos in positions;
      assert WriterKey(pos.0, pos.1, galType) in m;
    }
  }

  /** Every ordinate of every parameter under its writer key (lines 406-409),
      and nothing else. */
  function RenamedOrdinates(ordinates: map<string, seq<real>>, galType: string): (m: Store)
    ensures m.Keys == set p, i: nat | p in ordinates && i < |ordinates[p]| :: WriterKey(p, i, galType)
    ensures forall p, i :: p in ordinates && 0 <= i < |ordinates[p]| ==>
      WriterKey(p, i, galType) in m && m[WriterKey(p, i, galType)] == Scalar(ordinates[p][i])
  {
    RenamedEntriesKeys(ordinates, galType);
    RenamedEntriesValues(ordinates, galType);
    RenamedEntries(ordinates, galType)
  }

  /** The renamed ordinates of all parameters are the per-parameter renamed
      dictionaries put together: each one sits inside the whole unchanged. */
  lemma RenamedOrdinatesJoinEntries(ordinates: map<string, seq<real>>, galType: string, p: string)
    requires p in ordinates
    ensures var whole := RenamedOrdinates(ordinates, galType);
      var part := OrdinateEntries(p, ordinates[p], galType);
      forall k :: k in part ==> k in whole && whole[k] == part[k]
  {
    var whole := RenamedOrdinates(ordinates, galType);
    var part := OrdinateEntries(p, ordinates[p], galType);
    forall k | k in part ensures k in whole && whole[k] == part[k] {
      var i :| 0 <= i < |ordinates[p]| && k == WriterKey(p, i, galType);
    }
  }

  /** The store `set_parameter_dict` is meant to leave behind (its assignment
      at line 379 is unfinished): each ordinate under its writer key, and each
      parameter's abcissa and ordinates tables under their table keys. The
      three key families are disjoint (`KeyFamiliesDisjoint`), so the order of
      the union does not matter. */
  function InitialStore(abcissa: map<string, seq<real>>, ordinates: map<string, seq<real>>, galType: string): (s: Store)
    ensures forall p :: p in abcissa ==> AbcissaKey(p, galType) in s && s[AbcissaKey(p, galType)] == Table(abcissa[p])
  {
    RenamedOrdinates(ordinates, galType) + OrdinateTables(ordinates, galType) + AbcissaTables(abcissa, galType)
  }

  /** The initial store holds the ordinates table of every parameter. */
  lemma InitialStoreHoldsOrdinatesTable(abcissa: map<string, seq<real>>, ordinates: map<string, seq<real>>,
                                        galType: string, p: string)
    requires p in ordinates
    ensures var store := InitialStore(abcissa, ordinates, galType);
      OrdinatesKey(p, galType) in store && store[OrdinatesKey(p, galType)] == Table(ordinates[p])
  {
    var key := OrdinatesKey(p, galType);
    forall q ensures key != AbcissaKey(q, galType) {
      KeyFamiliesDisjoint(q, 0, p, galType);
    }
    assert key !in AbcissaTables(abcissa, galType);
  }

  /** The initial store holds every ordinate under its writer key. */
  lemma InitialStoreHoldsOrdinate(abcissa: map<string, seq<real>>, ordinates: map<string, seq<real>>,
                                  galType: string, p: string, i: nat)
    requires p in ordinates && i < |ordinates[p]|
    ensures var store := InitialStore(abcissa, ordinates, galType);
      WriterKey(p, i, galType) in store && store[WriterKey(p, i, galType)] == Scalar(ordinates[p][i])
  {
    var key := WriterKey(p, i, galType);
    forall q ensures key != AbcissaKey(q, galType) && key != OrdinatesKey(q, galType) {
      KeyFamiliesDisjoint(p, i, q, galType);
    }
    assert key !in AbcissaTables(abcissa, galType);
    assert key !in OrdinateTables(ordinates, galType);
  }
}

=== FILE: wrappers.dfy ===
/** Failure-compatible result types used for the exceptions the profile-bias
    component raises: every operation that can raise returns one of these. */
module Wrappers {

  /** Either a value or the error that was raised instead. */
  datatype Result<+R, +E> = Success(value: R) | Failure(error: E) {

    predicate IsFailure() {
      Failure?
    }

    function PropagateFailure<U>(): Result<U, E>
      requires Failure?
    {
      Failure(error)
    }

    function Extract(): R
      requires Success?
    {
      value
    }
  }

  /** A check that either passes or raises; it carries no value. */
  datatype Outcome<+E> = Pass | Fail(error: E) {

    predicate IsFailure() {
      Fail?
    }

    function PropagateFailure<U>(): Result<U, E>
      requires Fail?
    {
      Failure(error)
    }
  }

  datatype Option<+T> = None | Some(value: T)
}
